=== FILE: README.md ===
# helis: key decoder, cursor, append buffer and frame, in Dafny

A model of the core of `helis.c`, an early-stage terminal editor. The model
covers the four pieces of sequential logic the program has, plus the main loop
that joins them:

- **Key decoder** (`KeyDecoder`, with key codes in `Keys`). `editorReadKey`
  turns the bytes on the terminal into one key code per call. The escape
  sequences `ESC [ X`, `ESC [ d ~` and `ESC O X` become named keys, which
  number from 1000 up. The letters `h j k l` become the arrows. Any other
  byte is returned as the value of the `char` that holds it, with `char`
  taken as signed. A
  follow-up byte that does not arrive is the end of the input sequence.
- **Cursor state machine** (`Input`). `editorMoveCursor` and
  `editorProcessKeypress` act on the cursor `(cx, cy)` of a
  `screencols × screenrows` screen, starting from `initEditor`'s `(0, 0)`.
- **Append buffer** (`AppendBuffer`). `abAppend` grows the buffer with
  `realloc` and `memcpy`. Whether `realloc` succeeds is a parameter.
- **Frame builder** (`Render`, with `Text` and `Decimal`). `Frame` states
  which bytes one refresh writes. `DrawWelcome`, `DrawRow`, `DrawRows` and
  `RefreshScreen` build the frame append by append, as `editorDrawRows` and
  `editorRefreshScreen` do, and are proved to produce exactly `Frame`.
- **Main loop** (`Editor`). Refresh, decode one key, handle it, repeat. The
  loop runs over the bytes that have arrived and stops on Ctrl-Q.

Each operation has a partner that it is proved against:
- the decoder against a table of every recognised escape sequence, and
  against the canonical sequence of each named key (a round trip);
- the cursor moves against the bounds invariant and closed forms for the
  repeated page steps;
- the append buffer against plain concatenation;
- the frame builder against the declarative frame, whose rows are recovered
  by splitting at `\r\n`;
- the `%d` helper against the value of its digits;
- the main loop against decoding all keys first and then dispatching them.

## Model

| member | source | states |
|---|---|---|
| `Keys.CharValue` | helis.c:84-156 | a byte read into the signed `char` comes back as a value in [-128, 128) that is congruent to the byte modulo 256, so it is never a named key (those start at 1000) |
| `KeyDecoder.Decode` | helis.c:82-158 | one call produces a key only if some byte is available; it reads between 1 and 4 bytes, one byte unless the first is ESC; and the key is either a named key or the value of the first byte |
| `KeyDecoder.EscapeSequence` | helis.c:98-143 | every named key has an escape sequence in the table of recognised sequences that stands for it |
| `KeyDecoder.DecodeTableEntry` | helis.c:90-143 | an input that begins with a recognised escape sequence decodes to that sequence's key and consumes exactly the sequence, whatever follows it |
| `KeyDecoder.DecodedNamedKeyIsInTable` | helis.c:90-144 | if an ESC-led input decodes to something other than a bare ESC, the consumed bytes are a table entry for that key |
| `KeyDecoder.EscapeDecodesByTable` | helis.c:90-144 | an ESC-led input yields a named key exactly when it starts with a table entry; in every other case (unknown second byte, unknown digit, a third byte that is not `~`, a short read) it yields a bare ESC |
| `KeyDecoder.DecodeEscapeSequence` | helis.c:98-143 | round trip: the escape sequence of each named key decodes back to that key, consuming exactly the sequence |
| `KeyDecoder.DecodeLiteral` | helis.c:145-157 | a non-ESC byte is one byte; `k j l h` are exactly the bytes giving up/down/right/left; a literal byte gives a named key only if it is one of `h j k l`, and otherwise gives its own `char` value |
| `KeyDecoder.ShortEscapeIsBareEscape` | helis.c:93-101 | ESC followed by fewer than two bytes, or by `[` and a digit with nothing after it, is a bare ESC that consumed everything read |
| `KeyDecoder.DecodeReadsOnlyConsumed` | helis.c:90-101 | the bytes a call reports as consumed decode, on their own, to the same key |
| `Input.Init` | helis.c:348-350 | the starting cursor lies on every screen with at least one row and one column |
| `Input.MoveCursor` | helis.c:284-307 | an arrow changes only its own coordinate, by at most one step and in its own direction; a key that is not an arrow changes nothing; an on-screen cursor stays on the screen; and any cursor, on the screen or not, fails to move exactly when it is on the edge the arrow points at, because the edges are compared with `!=` (so on a screen with no rows, Down keeps moving the cursor) |
| `Input.RepeatMove` | helis.c:331-333 | repeating a vertical step leaves the column alone and keeps an on-screen cursor on the screen |
| `Input.RepeatUp` | helis.c:284-290 | `n` up steps move a cursor that is not above the screen to row `max(cy - n, 0)` and keep its column |
| `Input.RepeatDown` | helis.c:291-295 | `n` down steps move a cursor that is not below the screen to row `min(cy + n, screenrows - 1)` and keep its column |
| `Input.ProcessKeypress` | helis.c:310-344 | the outcome is Quit exactly for Ctrl-Q; Home sets `cx = 0` and End sets `cx = screencols - 1`, both keeping `cy`; the page keys keep `cx`; the arrows make one move; Delete and every key not in the switch leave the cursor unchanged |
| `Input.PageKeysReachEdge` | helis.c:329-334 | for a cursor on a screen row, Page Up drives `cy` to 0 and Page Down drives it to `screenrows - 1`, both keeping `cx` |
| `Input.PageKeysStepScreenRows` | helis.c:329-334 | the page keys repeat the single step exactly `screenrows` times: Page Up moves a cursor that is not above the screen up by `screenrows` rows, stopping at row 0, and on a screen with no rows neither page key moves the cursor |
| `Input.ProcessKeypressKeepsBounds` | helis.c:313-343 | no key takes an on-screen cursor off a screen of at least one row and column |
| `Input.ProcessKeysKeepsBounds` | helis.c:310-344 | a run of keys keeps the cursor on the screen, and it ends in Quit exactly when Ctrl-Q is among the keys |
| `AppendBuffer.Realloc` | helis.c:212 | the new storage has the requested size and starts with as much of the old contents as fits |
| `AppendBuffer.Memcpy` | helis.c:217 | the copied bytes replace exactly the `n` bytes at the offset, and the rest of the storage is untouched |
| `AppendBuffer.Append` | helis.c:210-221 | when the allocation succeeds, the contents become the old contents followed by `s[0..n)` and `len` grows by `n`; when it fails, the buffer is unchanged; the length field always matches the contents |
| `AppendBuffer.AppendTwice` | helis.c:210-221 | appending `s` and then `t` leaves the same buffer as appending `s + t` once |
| `Text.SplitJoin` | helis.c:251-253 | lines joined with `\r\n` and split again at `\r\n` give the lines back, when no line holds a carriage return |
| `Decimal.NatToDecimal` | helis.c:270 | `%d` of a non-negative number is at least one digit, has no leading zero, and its digits denote the number |
| `Decimal.IntToDecimal` | helis.c:270 | `%d` of a non-negative number is its digits and of a negative number a minus sign followed by the digits of its magnitude, in both cases with no leading zero |
| `Decimal.NumeralUnique` | helis.c:270 | a string of digits without a leading zero that denotes `n` is exactly the numeral produced for `n`, so the digits `%d` writes are determined by the value |
| `Render.WelcomeWidth` | helis.c:233-237 | the banner is truncated to the screen width: the kept length is the smaller of the banner length and `screencols` |
| `Render.WelcomeLine` | helis.c:230-246 | the banner line ends with the truncated banner; its visible width `padding + welcomelen` never exceeds `screencols`; the space left on the right is the padding or one more, so the banner is centred; when the padding is positive the line starts with `>` followed by `padding - 1` blanks; the line has no carriage return |
| `Render.FrameRows` | helis.c:227-255 | for at least one row, the rows split at `\r\n` into exactly `screenrows` lines; every line ends with `\x1b[K`; row `screenrows/3` is the banner line; every other row is exactly `>` |
| `Render.FrameShape` | helis.c:258-274 | a frame starts with `\x1b[?25l\x1b[1;1H`, ends with `\x1b[<cy+1>;<cx+1>H\x1b[?25h`, and holds the rows in between; for a cursor on the screen, the row and column are written as plain decimal numerals |
| `Render.AppendBlanks` | helis.c:244-245 | the padding loop adds exactly `padding` blanks after what the buffer held |
| `Render.DrawRowText` | helis.c:230-248 | before the erase escape, row `screenrows/3` draws the welcome line and every other row draws `>` |
| `Render.DrawWelcome` | helis.c:230-246 | the banner branch appends exactly the welcome line, following the source's marker-then-blanks loop |
| `Render.DrawRow` | helis.c:229-254 | one pass of the row loop appends that row, its erase escape, and `\r\n` on every row but the last |
| `Render.DrawRows` | helis.c:227-255 | the row loop appends exactly the joined rows of the frame |
| `Render.RefreshScreen` | helis.c:258-277 | the bytes built in a fresh append buffer and handed to `write` are exactly `Frame` for the current cursor |
| `Editor.MainLoopIsDecodeThenDispatch` | helis.c:356-366 | the loop quits exactly when the keys decoded from the input, handled in order, reach Ctrl-Q; otherwise it ends where dispatching those keys one by one leaves the cursor |
| `Editor.MainLoopStartsWithFrame` | helis.c:361-364 | whatever bytes arrive, the loop first writes the frame for the cursor it starts from |
| `Editor.HandleKeyEndsWithClear` | helis.c:310-318 | when handling the next key ends the run, the bytes it writes end with the clear-screen and home escapes |
| `Editor.MainLoopEndsWithClear` | helis.c:314-318 | a run that ends on Ctrl-Q ends its output with the clear-screen and home escapes, the last ten bytes written before `exit` |
| `Editor.MainLoopKeepsCursorOnScreen` | helis.c:348-366 | from an on-screen start such as `initEditor`'s, the loop never leaves the cursor off the screen, whatever bytes arrive |

## Left out

- Raw mode (`enableRawMode`, `disableRawMode`, `atexit`, helis.c:52-79): these are termios system calls. Their only logic is masking OS flags.
- The blocking read and retry loop in `editorReadKey` (helis.c:85-88), its `errno` test, and the read timeout (`VTIME = 8`): the decoder works on the bytes already available. `Decode` returns `None` on empty input, where the source would keep waiting.
- `die`, `exit`, `perror` and the `write` calls (helis.c:43-49, 277, 314-318): these are process termination and raw output. The quit path's two escapes are kept as the end of the loop's output.
- `getWindowSize` and `getCursorPosition` (helis.c:161-196): an ioctl query, a terminal round trip, and `sscanf` from a library that is not part of this model. The screen size is a parameter with `rows` and `cols` as natural numbers. A negative size from the `sscanf` fallback is not modelled.
- `abFree` (helis.c:223): releasing memory has no observable effect in the model.
- Render.RefreshScreen: assumes every `abAppend` allocation succeeds, as do `Render.DrawRows`, `Render.DrawRow`, `Render.DrawRowText`, `Render.DrawWelcome` and `Render.AppendBlanks`. The effect of a failed allocation is modelled only in `AppendBuffer.Append`, where it leaves the buffer unchanged.
- Input.MoveCursor: `cx` and `cy` are unbounded integers. The 32-bit `int` overflow that only a run of about 2^31 steps on a screen with no rows or no columns could reach (the edge tests use `!=`, so there the cursor keeps moving) is not modelled.
- Decimal.IntToDecimal: does not model the truncation to `snprintf`'s 32-byte buffer (helis.c:269-270). No 32-bit value comes close to that length.
- Editor.MainLoop: stops when the input runs out. At that point the real program waits in `read`.
- Editor.MainLoop: the input is one unbroken byte stream, so the bytes of an escape sequence are taken to arrive without a read timing out between them. In the source, a pause longer than `VTIME = 8` deciseconds (helis.c:75) after ESC makes the follow-up read at helis.c:93 return 0. That call returns a bare ESC, and the rest of the sequence (for `ESC [ A`, the bytes `[` and `A`) then arrives as keys of their own, where the model decodes one named key.
- Keys.CharValue: plain `char` is taken as signed, as on x86. Where it is unsigned, bytes from 0x80 upwards come back from `editorReadKey` (helis.c:156) as 128..255.

=== FILE: abuf.dfy ===
/**
 The append buffer (helis.c:200-221): a growable byte string that collects a
 whole frame so that it can be written in one go. Memory is a sequence; the
 outcome of `realloc` is a parameter, since whether the allocator succeeds is
 outside the program.
 */
module AppendBuffer {

  /** `struct abuf`: the storage `b` and its length `len`. */
  datatype ABuf = ABuf(b: seq<char>, len: int)

  /** `ABUF_INIT`: no storage, length 0. */
  const ABUF_INIT: ABuf := ABuf([], 0)

  /** The length field describes the storage. */
  predicate Valid(ab: ABuf) {
    ab.len == |ab.b|
  }

  /** `realloc(b, size)`: storage of the new size whose first bytes, as many as
      both sizes allow, are the old ones; bytes beyond the old size have no
      defined value and are written as NUL here. */
  function Realloc(b: seq<char>, size: nat): (r: seq<char>)
    ensures |r| == size
    ensures size <= |b| ==> r == b[..size]
    ensures size >= |b| ==> r[..|b|] == b
  {
    if size <= |b| then b[..size] else b + seq(size - |b|, _ => '\0')
  }

  /** `memcpy(&dst[off], src, n)`: the `n` bytes from `off` on are replaced by
      the first `n` bytes of `src`. */
  function Memcpy(dst: seq<char>, off: nat, src: seq<char>, n: nat): (r: seq<char>)
    requires n <= |src| && off + n <= |dst|
    ensures |r| == |dst|
    ensures r[..off] == dst[..off] && r[off..off + n] == src[..n] && r[off + n..] == dst[off + n..]
  {
    dst[..off] + src[..n] + dst[off + n..]
  }

  /** `abAppend(ab, s, n)`. `allocOk` is whether `realloc` succeeded: if it did
      the buffer holds the old contents followed by the first `n` bytes of `s`;
      if it did not the buffer is left as it was. */
  function Append(ab: ABuf, s: seq<char>, n: nat, allocOk: bool): (r: ABuf)
    requires Valid(ab) && n <= |s|
    ensures Valid(r)
    ensures allocOk ==> r.b == ab.b + s[..n] && r.len == ab.len + n
    ensures !allocOk ==> r == ab
  {
    if !allocOk then ab
    else
      var storage := Realloc(ab.b, ab.len + n);
      ABuf(Memcpy(storage, ab.len, s, n), ab.len + n)
  }

  /** Appending whole strings in turn is the same as appending their concatenation. */
  lemma AppendTwice(ab: ABuf, s: seq<char>, t: seq<char>)
    requires Valid(ab)
    ensures Append(Append(ab, s, |s|, true), t, |t|, true) == Append(ab, s + t, |s + t|, true)
  {
    assert s[..|s|] == s && t[..|t|] == t && (s + t)[..|s + t|] == s + t;
    var once := Append(ab, s, |s|, true);
    assert once.b == ab.b + s;
    var twice := Append(once, t, |t|, true);
    assert twice.b == (ab.b + s) + t;
    assert (ab.b + s) + t == ab.b + (s + t);
  }
}

=== FILE: decimal.dfy ===
/**
 The `%d` conversion of `snprintf`, as used for the cursor-position escape
 (helis.c:270): decimal digits, most significant first, with a minus sign for
 negative values.
 */
module Decimal {

  predicate IsDigitChar(ch: char) {
    '0' <= ch <= '9'
  }

  predicate AllDigits(s: string) {
    forall i :: 0 <= i < |s| ==> IsDigitChar(s[i])
  }

  function DigitChar(d: nat): (ch: char)
    requires d < 10
    ensures IsDigitChar(ch)
  {
    ('0' as int + d) as char
  }

  /** The number a string of decimal digits denotes. */
  function DecimalValue(s: string): nat
    requires AllDigits(s)
    decreases |s|
  {
    if |s| == 0 then 0
    else DecimalValue(s[..|s| - 1]) * 10 + (s[|s| - 1] as int - '0' as int)
  }

  /** The shortest decimal numeral of `n`: at least one digit, no leading
      zero, and it denotes `n`. */
  function NatToDecimal(n: nat): (s: string)
    ensures |s| >= 1 && AllDigits(s)
    ensures |s| > 1 ==> s[0] != '0'
    ensures DecimalValue(s) == n
    decreases n
  {
    if n < 10 then [DigitChar(n)]
    else
      var front := NatToDecimal(n / 10);
      var s := front + [DigitChar(n % 10)];
      assert s[..|s| - 1] == front;
      s
  }

  /** A numeral whose first digit is not zero denotes a positive number. */
  lemma {:induction false} LeadingDigitPositive(s: string)
    requires |s| >= 1 && AllDigits(s) && s[0] != '0'
    ensures DecimalValue(s) >= 1
    decreases |s|
  {
    if |s| > 1 {
      var front := s[..|s| - 1];
      assert front[0] == s[0];
      LeadingDigitPositive(front);
    }
  }

  /** The numeral `NatToDecimal` produces is the only one with its three
      properties: any string of digits without a leading zero that denotes
      `n` is exactly `NatToDecimal(n)`. */
  lemma {:induction false} NumeralUnique(s: string, n: nat)
    requires |s| >= 1 && AllDigits(s)
    requires |s| > 1 ==> s[0] != '0'
    requires DecimalValue(s) == n
    ensures s == NatToDecimal(n)
    decreases |s|
  {
    var last := s[|s| - 1];
    var d := last as int - '0' as int;
    assert IsDigitChar(last);
    assert DigitChar(d) == last;
    if |s| == 1 {
      assert s == [last];
    } else {
      var front := s[..|s| - 1];
      assert front[0] == s[0];
      assert AllDigits(front);
      LeadingDigitPositive(front);
      var v := DecimalValue(front);
      assert n == v * 10 + d;
      assert n / 10 == v && n % 10 == d;
      NumeralUnique(front, v);
      assert s == front + [last];
    }
  }

  /** `%d`: a minus sign before the digits of a negative value. */
  function IntToDecimal(i: int): (s: string)
    ensures |s| >= 1
    ensures i >= 0 ==> AllDigits(s) && DecimalValue(s) == i
    ensures i < 0 ==> s[0] == '-' && AllDigits(s[1..]) && DecimalValue(s[1..]) == -i
    ensures i >= 0 && |s| > 1 ==> s[0] != '0'
    ensures i < 0 ==> |s| >= 2 && (|s| > 2 ==> s[1] != '0')
  {
    if i < 0 then "-" + NatToDecimal(-i) else NatToDecimal(i)
  }
}

=== FILE: decoder.dfy ===
/**
 The key decoder, `editorReadKey` (helis.c:82-158), over the bytes that are
 already available on the terminal. One call turns a prefix of the input into
 one key code and says how many bytes it read; a follow-up byte that does not
 arrive before the read times out is simply the end of the sequence.
 */
module KeyDecoder {
  import opened Wrappers
  import opened Keys

  /** The key produced by one call and the number of bytes it read. */
  datatype Decoded = Decoded(key: int, consumed: nat)

  const LBRACKET: byte := '[' as int
  const LETTER_O: byte := 'O' as int
  const TILDE: byte := '~' as int

  predicate IsDigit(b: byte) {
    '0' as int <= b <= '9' as int
  }

  /** A byte that is not ESC: `h j k l` are vi aliases for the arrows, any
      other byte is returned as the value of the `char` holding it. */
  function LiteralKey(b: byte): int {
    if b == 'k' as int then ARROW_UP
    else if b == 'j' as int then ARROW_DOWN
    else if b == 'l' as int then ARROW_RIGHT
    else if b == 'h' as int then ARROW_LEFT
    else CharValue(b)
  }

  /** `ESC [ d ~`: the digit selects the key; an unlisted digit gives a bare ESC. */
  function TildeKey(d: byte): int {
    if d == '1' as int then HOME_KEY
    else if d == '3' as int then DEL_KEY
    else if d == '4' as int then END_KEY
    else if d == '5' as int then PAGE_UP
    else if d == '6' as int then PAGE_DOWN
    else if d == '7' as int then HOME_KEY
    else if d == '8' as int then END_KEY
    else ESC
  }

  /** `ESC [ X` with X not a digit. */
  function BracketKey(x: byte): int {
    if x == 'A' as int then ARROW_UP
    else if x == 'B' as int then ARROW_DOWN
    else if x == 'C' as int then ARROW_RIGHT
    else if x == 'D' as int then ARROW_LEFT
    else if x == 'H' as int then HOME_KEY
    else if x == 'F' as int then END_KEY
    else ESC
  }

  /** `ESC O X`. */
  function SS3Key(x: byte): int {
    if x == 'H' as int then HOME_KEY
    else if x == 'F' as int then END_KEY
    else ESC
  }

  /** The escape-sequence branch, once ESC and two more bytes have been read. */
  function DecodeEscape(s0: byte, s1: byte, s2: Option<byte>): Decoded {
    if s0 == LBRACKET then
      if IsDigit(s1) then
        if s2.None? then Decoded(ESC, 3)
        else if s2.value == TILDE then Decoded(TildeKey(s1), 4)
        else Decoded(ESC, 4)
      else Decoded(BracketKey(s1), 3)
    else if s0 == LETTER_O then Decoded(SS3Key(s1), 3)
    else Decoded(ESC, 3)
  }

  /** One call of `editorReadKey`. `None` when no byte is available at all: the
      source keeps polling and never returns in that case. */
  function Decode(input: seq<byte>): (r: Option<Decoded>)
    ensures r.None? <==> |input| == 0
    ensures r.Some? ==> 1 <= r.value.consumed <= |input| && r.value.consumed <= 4
    ensures r.Some? ==> IsNamedKey(r.value.key) || r.value.key == CharValue(input[0])
    ensures r.Some? && input[0] != ESC ==> r.value.consumed == 1
    ensures r.Some? && input[0] == ESC && |input| < 3 ==> r.value.consumed == |input|
    ensures r.Some? && input[0] == ESC && |input| >= 3 ==>
      r.value.consumed == (if input[1] == LBRACKET && IsDigit(input[2]) && |input| >= 4 then 4 else 3)
  {
    if |input| == 0 then None
    else if input[0] != ESC then Some(Decoded(LiteralKey(input[0]), 1))
    else if |input| == 1 then Some(Decoded(ESC, 1))
    else if |input| == 2 then Some(Decoded(ESC, 2))
    else Some(DecodeEscape(input[1], input[2], if |input| >= 4 then Some(input[3]) else None))
  }

  /** Every escape sequence the decoder recognises, with the key it stands for. */
  const EscapeTable: map<seq<byte>, int> := map[
    [ESC, LBRACKET, 'A' as int] := ARROW_UP,
    [ESC, LBRACKET, 'B' as int] := ARROW_DOWN,
    [ESC, LBRACKET, 'C' as int] := ARROW_RIGHT,
    [ESC, LBRACKET, 'D' as int] := ARROW_LEFT,
    [ESC, LBRACKET, 'H' as int] := HOME_KEY,
    [ESC, LBRACKET, 'F' as int] := END_KEY,
    [ESC, LBRACKET, '1' as int, TILDE] := HOME_KEY,
    [ESC, LBRACKET, '3' as int, TILDE] := DEL_KEY,
    [ESC, LBRACKET, '4' as int, TILDE] := END_KEY,
    [ESC, LBRACKET, '5' as int, TILDE] := PAGE_UP,
    [ESC, LBRACKET, '6' as int, TILDE] := PAGE_DOWN,
    [ESC, LBRACKET, '7' as int, TILDE] := HOME_KEY,
    [ESC, LBRACKET, '8' as int, TILDE] := END_KEY,
    [ESC, LETTER_O, 'H' as int] := HOME_KEY,
    [ESC, LETTER_O, 'F' as int] := END_KEY
  ]

  /** The canonical escape sequence a terminal sends for each named key. */
  function EscapeSequence(k: int): (s: seq<byte>)
    requires IsNamedKey(k)
    ensures s in EscapeTable && EscapeTable[s] == k
  {
    if k == ARROW_UP then [ESC, LBRACKET, 'A' as int]
    else if k == ARROW_DOWN then [ESC, LBRACKET, 'B' as int]
    else if k == ARROW_RIGHT then [ESC, LBRACKET, 'C' as int]
    else if k == ARROW_LEFT then [ESC, LBRACKET, 'D' as int]
    else if k == HOME_KEY then [ESC, LBRACKET, 'H' as int]
    else if k == END_KEY then [ESC, LBRACKET, 'F' as int]
    else if k == DEL_KEY then [ESC, LBRACKET, '3' as int, TILDE]
    else if k == PAGE_UP then [ESC, LBRACKET, '5' as int, TILDE]
    else [ESC, LBRACKET, '6' as int, TILDE]
  }

  /** Any input that starts with a recognised escape sequence decodes to that
      sequence's key and consumes exactly the sequence, whatever follows. */
  lemma DecodeTableEntry(p: seq<byte>, rest: seq<byte>)
    requires p in EscapeTable
    ensures Decode(p + rest) == Some(Decoded(EscapeTable[p], |p|))
  {
    var input := p + rest;
    assert input[0] == p[0] && input[1] == p[1] && input[2] == p[2];
    if |p| == 4 {
      assert input[3] == p[3];
    }
  }

  /** Conversely, an ESC-led input that decodes to anything but a bare ESC
      began with a recognised escape sequence: the bytes consumed. */
  lemma DecodedNamedKeyIsInTable(input: seq<byte>)
    requires |input| > 0 && input[0] == ESC
    requires Decode(input).value.key != ESC
    ensures input[..Decode(input).value.consumed] in EscapeTable
    ensures EscapeTable[input[..Decode(input).value.consumed]] == Decode(input).value.key
  {
    var d := Decode(input).value;
    assert |input| >= 3;
    if d.consumed == 3 {
      assert input[..3] == [input[0], input[1], input[2]];
    } else {
      assert input[..4] == [input[0], input[1], input[2], input[3]];
    }
  }

  /** An ESC-led input yields a named key exactly when it starts with an entry
      of the table; otherwise the decoder returns a bare ESC. */
  lemma EscapeDecodesByTable(input: seq<byte>)
    requires |input| > 0 && input[0] == ESC
    ensures Decode(input).value.key != ESC <==> exists p :: p in EscapeTable && p <= input
    ensures Decode(input).value.key == ESC || IsNamedKey(Decode(input).value.key)
  {
    var d := Decode(input).value;
    if d.key != ESC {
      DecodedNamedKeyIsInTable(input);
      var p := input[..d.consumed];
      assert p <= input;
    } else {
      forall p | p in EscapeTable && p <= input
        ensures false
      {
        assert p + input[|p|..] == input;
        DecodeTableEntry(p, input[|p|..]);
      }
    }
  }

  /** Round trip: each named key's escape sequence decodes back to that key. */
  lemma DecodeEscapeSequence(k: int, rest: seq<byte>)
    requires IsNamedKey(k)
    ensures Decode(EscapeSequence(k) + rest) == Some(Decoded(k, |EscapeSequence(k)|))
  {
    DecodeTableEntry(EscapeSequence(k), rest);
  }

  /** A byte other than ESC is one key: the arrows for `k j l h`, the byte
      itself otherwise. A named key therefore comes only from an escape
      sequence or a vi alias, and a literal key is never a named one. */
  lemma DecodeLiteral(b: byte, rest: seq<byte>)
    requires b != ESC
    ensures var d := Decode([b] + rest).value;
      d.consumed == 1 &&
      (b == 'k' as int <==> d.key == ARROW_UP) &&
      (b == 'j' as int <==> d.key == ARROW_DOWN) &&
      (b == 'l' as int <==> d.key == ARROW_RIGHT) &&
      (b == 'h' as int <==> d.key == ARROW_LEFT) &&
      (IsNamedKey(d.key) <==> b in {'h' as int, 'j' as int, 'k' as int, 'l' as int}) &&
      (!IsNamedKey(d.key) ==> d.key == CharValue(b))
  {
  }

  /** A short read after ESC, or any unrecognised follow-up, is a bare ESC. */
  lemma ShortEscapeIsBareEscape(input: seq<byte>)
    requires |input| > 0 && input[0] == ESC
    requires |input| < 3 || (input[1] == LBRACKET && IsDigit(input[2]) && |input| == 3)
    ensures Decode(input) == Some(Decoded(ESC, |input|))
  {
  }

  /** The decoder never looks past the bytes it reports as consumed: those
      bytes alone decode to the same key. */
  lemma DecodeReadsOnlyConsumed(input: seq<byte>)
    requires |input| > 0
    ensures Decode(input[..Decode(input).value.consumed]) == Decode(input)
  {
  }
}

=== FILE: editor.dfy ===
/**
 The editor's main loop (helis.c:356-366 with helis.c:310-318): refresh the
 screen, read one key, handle it, and again, until Ctrl-Q clears the screen and
 ends the process. The loop is run over the bytes that have arrived; once they
 run out the real program waits in `read`, and the model stops there.
 */
module Editor {
  import opened Wrappers
  import opened Keys
  import opened KeyDecoder
  import opened Input
  import opened Render
  import opened Text

  const ESC_CLEAR: string := [ESC_CHAR] + "[2J"

  /** Where a run of the loop ends: the cursor, everything written to the
      terminal, and whether the quit key ended the process. */
  datatype Run = Run(cursor: Cursor, output: string, quit: bool)

  /** Every key the input decodes to, one call of the decoder after another. */
  function DecodeAll(input: seq<byte>): (keys: seq<int>)
    ensures |keys| <= |input|
    decreases |input|
  {
    match Decode(input)
    case None => []
    case Some(d) => [d.key] + DecodeAll(input[d.consumed..])
  }

  /** The main loop from cursor `c` over the bytes `input`: one pass of the
      `while (1)` body is `editorRefreshScreen` followed by
      `editorProcessKeypress`. */
  function MainLoop(scr: Screen, c: Cursor, input: seq<byte>): Run
    decreases |input|, 1
  {
    var rest := HandleKey(scr, c, input);
    Run(rest.cursor, Frame(scr, c) + rest.output, rest.quit)
  }

  /** The second half of a pass: read one key and handle it; the quit key
      clears the screen and ends the run, any other key goes round again. */
  function HandleKey(scr: Screen, c: Cursor, input: seq<byte>): Run
    decreases |input|, 0
  {
    match Decode(input)
    case None => Run(c, "", false)
    case Some(d) =>
      match ProcessKeypress(c, scr, d.key)
      case Quit => Run(c, ESC_CLEAR + CURSOR_HOME, true)
      case Continue(next) => MainLoop(scr, next, input[d.consumed..])
  }

  /** The loop is the decoder followed by the dispatcher: it stops on the quit
      key exactly when the decoded keys contain it, and otherwise ends where
      the keys, handled one by one, leave the cursor. */
  lemma {:induction false} MainLoopIsDecodeThenDispatch(scr: Screen, c: Cursor, input: seq<byte>)
    ensures var run := MainLoop(scr, c, input);
      && (run.quit <==> ProcessKeys(c, scr, DecodeAll(input)).Quit?)
      && (!run.quit ==> run.cursor == ProcessKeys(c, scr, DecodeAll(input)).cursor)
    decreases |input|
  {
    match Decode(input)
    case None =>
    case Some(d) =>
      var keys := DecodeAll(input);
      assert keys[0] == d.key && keys[1..] == DecodeAll(input[d.consumed..]);
      match ProcessKeypress(c, scr, d.key)
      case Quit =>
      case Continue(next) =>
        MainLoopIsDecodeThenDispatch(scr, next, input[d.consumed..]);
        assert MainLoop(scr, c, input).quit == MainLoop(scr, next, input[d.consumed..]).quit;
  }

  /** Every run first writes the frame for the cursor it starts from. */
  lemma MainLoopStartsWithFrame(scr: Screen, c: Cursor, input: seq<byte>)
    ensures Frame(scr, c) <= MainLoop(scr, c, input).output
  {
    ConcatKeepsEnds(Frame(scr, c), HandleKey(scr, c, input).output, 0);
  }

  /** A run ended by the quit key last writes the clear-screen and home
      escapes that the quit path sends before `exit`. */
  lemma {:induction false} MainLoopEndsWithClear(scr: Screen, c: Cursor, input: seq<byte>)
    ensures var run := MainLoop(scr, c, input);
      run.quit ==> |run.output| >= 10 && run.output[|run.output| - 10..] == ESC_CLEAR + CURSOR_HOME
    decreases |input|, 1
  {
    var run := MainLoop(scr, c, input);
    var rest := HandleKey(scr, c, input);
    assert run.quit == rest.quit && run.output == Frame(scr, c) + rest.output;
    if rest.quit {
      HandleKeyEndsWithClear(scr, c, input);
      ConcatKeepsEnds(Frame(scr, c), rest.output, 10);
    }
  }

  /** The key-handling half of a pass that ends the run also ends with the
      clear-screen and home escapes. */
  lemma {:induction false} HandleKeyEndsWithClear(scr: Screen, c: Cursor, input: seq<byte>)
    ensures var run := HandleKey(scr, c, input);
      run.quit ==> |run.output| >= 10 && run.output[|run.output| - 10..] == ESC_CLEAR + CURSOR_HOME
    decreases |input|, 0
  {
    if Decode(input).Some? {
      var d := Decode(input).value;
      var o := ProcessKeypress(c, scr, d.key);
      if o.Quit? {
        var bye := ESC_CLEAR + CURSOR_HOME;
        assert |bye| == 10 && bye[|bye| - 10..] == bye;
      } else {
        MainLoopEndsWithClear(scr, o.cursor, input[d.consumed..]);
      }
    }
  }

  /** On a screen of at least one row and column, a run that starts with the
      cursor on the screen (as `main` starts it, at `Init()`) ends with the
      cursor on the screen, whatever the input. */
  lemma {:induction false} MainLoopKeepsCursorOnScreen(scr: Screen, c: Cursor, input: seq<byte>)
    requires scr.rows >= 1 && scr.cols >= 1
    requires InBounds(c, scr)
    ensures InBounds(MainLoop(scr, c, input).cursor, scr)
    decreases |input|
  {
    match Decode(input)
    case None =>
    case Some(d) =>
      ProcessKeypressKeepsBounds(c, scr, d.key);
      match ProcessKeypress(c, scr, d.key)
      case Quit =>
      case Continue(next) =>
        MainLoopKeepsCursorOnScreen(scr, next, input[d.consumed..]);
        assert MainLoop(scr, c, input).cursor == MainLoop(scr, next, input[d.consumed..]).cursor;
  }
}

=== FILE: input.dfy ===
/**
 The cursor state machine: `editorMoveCursor` and `editorProcessKeypress`
 (helis.c:284-344), starting from the state `initEditor` sets up
 (helis.c:348-350). The screen size is fixed once at start-up, so it is a
 parameter rather than part of the state.
 */
module Input {
  import opened Keys

  /** `E.screenrows` and `E.screencols`, as reported by the terminal. */
  datatype Screen = Screen(rows: nat, cols: nat)

  /** `E.cx` (column) and `E.cy` (row), both 0-based. */
  datatype Cursor = Cursor(cx: int, cy: int)

  /** What handling one key leads to: the quit key ends the process. */
  datatype Outcome = Quit | Continue(cursor: Cursor)

  /** The cursor lies on the screen. */
  predicate InBounds(c: Cursor, scr: Screen) {
    0 <= c.cx < scr.cols && 0 <= c.cy < scr.rows
  }

  /** `initEditor`: the cursor starts in the top-left corner. */
  function Init(): (c: Cursor)
    ensures forall scr: Screen :: scr.rows >= 1 && scr.cols >= 1 ==> InBounds(c, scr)
  {
    Cursor(0, 0)
  }

  /** `editorMoveCursor`: one step in the direction of an arrow key, unless the
      cursor already sits on the edge it would cross. Edges are checked with
      `!=`, as in the source, so the step is only a clamp for a cursor that is
      on the screen. */
  function MoveCursor(c: Cursor, scr: Screen, key: int): (r: Cursor)
    ensures key == ARROW_UP || key == ARROW_DOWN ==> r.cx == c.cx
    ensures key == ARROW_LEFT || key == ARROW_RIGHT ==> r.cy == c.cy
    ensures !IsArrow(key) ==> r == c
    ensures -1 <= r.cx - c.cx <= 1 && -1 <= r.cy - c.cy <= 1
    ensures key == ARROW_UP ==> r.cy <= c.cy
    ensures key == ARROW_DOWN ==> r.cy >= c.cy
    ensures key == ARROW_LEFT ==> r.cx <= c.cx
    ensures key == ARROW_RIGHT ==> r.cx >= c.cx
    ensures InBounds(c, scr) ==> InBounds(r, scr)
    ensures key == ARROW_UP ==> (r == c <==> c.cy == 0)
    ensures key == ARROW_DOWN ==> (r == c <==> c.cy == scr.rows - 1)
    ensures key == ARROW_LEFT ==> (r == c <==> c.cx == 0)
    ensures key == ARROW_RIGHT ==> (r == c <==> c.cx == scr.cols - 1)
  {
    if key == ARROW_UP then
      if c.cy != 0 then c.(cy := c.cy - 1) else c
    else if key == ARROW_DOWN then
      if c.cy != scr.rows - 1 then c.(cy := c.cy + 1) else c
    else if key == ARROW_LEFT then
      if c.cx != 0 then c.(cx := c.cx - 1) else c
    else if key == ARROW_RIGHT then
      if c.cx != scr.cols - 1 then c.(cx := c.cx + 1) else c
    else c
  }

  /** `while (times--) editorMoveCursor(key)`: the same single step, `times` times. */
  function RepeatMove(c: Cursor, scr: Screen, key: int, times: nat): (r: Cursor)
    ensures key == ARROW_UP || key == ARROW_DOWN ==> r.cx == c.cx
    ensures InBounds(c, scr) ==> InBounds(r, scr)
    decreases times
  {
    if times == 0 then c else RepeatMove(MoveCursor(c, scr, key), scr, key, times - 1)
  }

  /** Repeating the up step `n` times moves a cursor that is not above the
      screen `n` rows up, stopping at row 0. */
  lemma {:induction false} RepeatUp(c: Cursor, scr: Screen, n: nat)
    requires c.cy >= 0
    ensures RepeatMove(c, scr, ARROW_UP, n) == Cursor(c.cx, if c.cy >= n then c.cy - n else 0)
    decreases n
  {
    if n > 0 {
      RepeatUp(MoveCursor(c, scr, ARROW_UP), scr, n - 1);
    }
  }

  /** Repeating the down step `n` times moves a cursor that is not below the
      screen `n` rows down, stopping at the last row. */
  lemma {:induction false} RepeatDown(c: Cursor, scr: Screen, n: nat)
    requires c.cy <= scr.rows - 1
    ensures RepeatMove(c, scr, ARROW_DOWN, n) ==
      Cursor(c.cx, if c.cy + n <= scr.rows - 1 then c.cy + n else scr.rows - 1)
    decreases n
  {
    if n > 0 {
      RepeatDown(MoveCursor(c, scr, ARROW_DOWN), scr, n - 1);
    }
  }

  /** The arrow step a page key repeats. */
  function PageStep(key: int): int {
    if key == PAGE_UP then ARROW_UP else ARROW_DOWN
  }

  /** `editorProcessKeypress`, once the key has been read. */
  function ProcessKeypress(c: Cursor, scr: Screen, key: int): (r: Outcome)
    ensures r.Quit? <==> key == QUIT_KEY
    ensures key == HOME_KEY ==> r == Continue(Cursor(0, c.cy))
    ensures key == END_KEY ==> r == Continue(Cursor(scr.cols - 1, c.cy))
    ensures key == PAGE_UP || key == PAGE_DOWN ==> r.Continue? && r.cursor.cx == c.cx
    ensures IsArrow(key) ==> r == Continue(MoveCursor(c, scr, key))
    ensures key != QUIT_KEY && !IsNamedKey(key) ==> r == Continue(c)
    ensures key == DEL_KEY ==> r == Continue(c)
  {
    if key == QUIT_KEY then Quit
    else if key == HOME_KEY then Continue(c.(cx := 0))
    else if key == END_KEY then Continue(c.(cx := scr.cols - 1))
    else if key == PAGE_UP || key == PAGE_DOWN then
      Continue(RepeatMove(c, scr, PageStep(key), scr.rows))
    else if IsArrow(key) then Continue(MoveCursor(c, scr, key))
    else Continue(c)
  }

  /** Page Up drives the cursor to the top row and Page Down to the bottom
      row of the screen, leaving the column alone: the screen height in single
      steps is always enough to reach the edge. */
  lemma PageKeysReachEdge(c: Cursor, scr: Screen)
    requires 0 <= c.cy < scr.rows
    ensures ProcessKeypress(c, scr, PAGE_UP) == Continue(Cursor(c.cx, 0))
    ensures ProcessKeypress(c, scr, PAGE_DOWN) == Continue(Cursor(c.cx, scr.rows - 1))
  {
    RepeatUp(c, scr, scr.rows);
    RepeatDown(c, scr, scr.rows);
  }

  /** The page keys take exactly `screenrows` single steps: Page Up moves any
      cursor that is not above the screen `screenrows` rows up, stopping at
      row 0, and on a screen with no rows neither page key moves the cursor. */
  lemma PageKeysStepScreenRows(c: Cursor, scr: Screen)
    ensures c.cy >= 0 ==>
      ProcessKeypress(c, scr, PAGE_UP) == Continue(Cursor(c.cx, if c.cy >= scr.rows then c.cy - scr.rows else 0))
    ensures scr.rows == 0 ==> ProcessKeypress(c, scr, PAGE_UP) == Continue(c)
    ensures scr.rows == 0 ==> ProcessKeypress(c, scr, PAGE_DOWN) == Continue(c)
  {
    if c.cy >= 0 {
      RepeatUp(c, scr, scr.rows);
    }
  }

  /** No key moves a cursor off a screen of at least one row and column. */
  lemma ProcessKeypressKeepsBounds(c: Cursor, scr: Screen, key: int)
    requires scr.rows >= 1 && scr.cols >= 1
    requires InBounds(c, scr)
    ensures ProcessKeypress(c, scr, key).Continue? ==>
      InBounds(ProcessKeypress(c, scr, key).cursor, scr)
  {
    PageKeysReachEdge(c, scr);
  }

  /** Handles keys in order until the quit key; the final cursor, and whether
      the quit key was seen. */
  function ProcessKeys(c: Cursor, scr: Screen, keys: seq<int>): (r: Outcome)
    decreases |keys|
  {
    if |keys| == 0 then Continue(c)
    else match ProcessKeypress(c, scr, keys[0])
      case Quit => Quit
      case Continue(c') => ProcessKeys(c', scr, keys[1..])
  }

  /** From any cursor on the screen, no run of keys ever takes the cursor off the screen. */
  lemma {:induction false} ProcessKeysKeepsBounds(c: Cursor, scr: Screen, keys: seq<int>)
    requires scr.rows >= 1 && scr.cols >= 1
    requires InBounds(c, scr)
    ensures ProcessKeys(c, scr, keys).Continue? ==> InBounds(ProcessKeys(c, scr, keys).cursor, scr)
    ensures ProcessKeys(c, scr, keys).Quit? <==> QUIT_KEY in keys
    decreases |keys|
  {
    if |keys| > 0 {
      ProcessKeypressKeepsBounds(c, scr, keys[0]);
      if keys[0] != QUIT_KEY {
        ProcessKeysKeepsBounds(ProcessKeypress(c, scr, keys[0]).cursor, scr, keys[1..]);
        assert QUIT_KEY in keys <==> QUIT_KEY in keys[1..] by {
          assert keys == [keys[0]] + keys[1..];
        }
      }
    }
  }
}

=== FILE: keys.dfy ===
/**
 Key codes of the editor (helis.c:13-27): literal keys are the value of the byte
 read from the terminal, named keys are the members of `enum editorKey`,
 numbered from 1000 so that they never collide with a byte value.
 */
module Keys {

  /** One byte of terminal input. */
  type byte = x: int | 0 <= x < 256

  const ESC: int := 0x1b

  const ARROW_LEFT: int := 1000
  const ARROW_RIGHT: int := 1001
  const ARROW_UP: int := 1002
  const ARROW_DOWN: int := 1003
  const DEL_KEY: int := 1004
  const HOME_KEY: int := 1005
  const END_KEY: int := 1006
  const PAGE_UP: int := 1007
  const PAGE_DOWN: int := 1008

  /** The enumerators of `enum editorKey`. */
  predicate IsNamedKey(k: int) {
    ARROW_LEFT <= k <= PAGE_DOWN
  }

  predicate IsArrow(k: int) {
    k == ARROW_LEFT || k == ARROW_RIGHT || k == ARROW_UP || k == ARROW_DOWN
  }

  /** The value of a byte read into a plain `char` and widened to `int`.
      Whether plain `char` is signed is left to the C implementation; the
      model takes it as signed (as on x86), so bytes from 0x80 upwards come
      out negative. */
  function CharValue(b: byte): (v: int)
    ensures -128 <= v < 128
    ensures v % 256 == b
  {
    if b < 128 then b else b - 256
  }

  /** `CTRL_KEY(k)`: the low five bits of a key, what the terminal sends for Ctrl+k. */
  function CtrlKey(k: byte): int {
    ((k as bv8) & 0x1f) as int
  }

  /** Ctrl-Q, the quit key. */
  const QUIT_KEY: int := CtrlKey('q' as int)
}

=== FILE: render.dfy ===
/**
 The frame the editor writes on every refresh: `editorDrawRows` and
 `editorRefreshScreen` (helis.c:227-279). `Frame` says declaratively which
 bytes make up a frame; `DrawRows` and `RefreshScreen` build it the way the
 source does, append by append, and are proved to produce exactly `Frame`.
 */
module Render {
  import opened Input
  import opened AppendBuffer
  import opened Text
  import opened Decimal

  const ESC_CHAR: char := 27 as char

  /** `\x1b[?25l`: hide the cursor while drawing. */
  const HIDE_CURSOR: string := [ESC_CHAR] + "[?25l"
  /** `\x1b[?25h`: show it again. */
  const SHOW_CURSOR: string := [ESC_CHAR] + "[?25h"
  /** `\x1b[1;1H`: move to the top-left corner. */
  const CURSOR_HOME: string := [ESC_CHAR] + "[1;1H"
  /** `\x1b[K`: erase to the end of the line. */
  const ERASE_LINE: string := [ESC_CHAR] + "[K"

  const HELIS_VERSION: string := "0.0.0.0.1"
  /** The banner `snprintf` formats into its 80-byte buffer; it fits whole. */
  const WELCOME: string := "Helis editor -- version " + HELIS_VERSION

  /** How much of the banner fits on a line of `cols` columns. */
  function WelcomeWidth(cols: nat): (w: nat)
    ensures w <= cols && w <= |WELCOME|
    ensures w == cols || w == |WELCOME|
  {
    if |WELCOME| > cols then cols else |WELCOME|
  }

  /** The welcome row without its erase escape: the banner, truncated to the
      screen width and centred, with a `>` in the first column when there is
      room to the left of it. */
  function WelcomeLine(cols: nat): (r: string)
    ensures var w := WelcomeWidth(cols); var pad := |r| - w;
      && |r| >= w
      && r[pad..] == WELCOME[..w]
      && |r| <= cols
      && pad <= cols - |r| <= pad + 1
      && (pad > 0 ==> r[0] == '>' && forall i :: 1 <= i < pad ==> r[i] == ' ')
    ensures NoCR(r)
  {
    var w := WelcomeWidth(cols);
    var padding := (cols - w) / 2;
    var banner := WELCOME[..w];
    assert NoCR(banner) by {
      assert NoCR(WELCOME);
      assert forall i :: 0 <= i < w ==> banner[i] == WELCOME[i];
    }
    if padding != 0 then
      var r := ">" + Spaces(padding - 1) + banner;
      assert r[padding..] == banner;
      r
    else banner
  }

  /** Row `r` of the screen, erase escape included: the banner on row
      `rows / 3`, a lone `>` on every other row. */
  function RowLine(scr: Screen, r: nat): string {
    RowText(scr, r) + ERASE_LINE
  }

  /** What row `r` shows: the banner line on row `rows / 3`, otherwise `>`. */
  function RowText(scr: Screen, r: nat): string {
    if r == scr.rows / 3 then WelcomeLine(scr.cols) else ">"
  }

  /** What follows row `r`: `\r\n` on every row but the last. */
  function Terminator(scr: Screen, r: nat): string {
    if r < scr.rows - 1 then CRLF else ""
  }

  /** Row `r` of the screen is what it shows followed by the erase escape. */
  lemma RowAt(scr: Screen, r: nat)
    requires r < scr.rows
    ensures Lines(scr)[r] == RowText(scr, r) + ERASE_LINE
  {
  }

  /** Row `r` as the row loop writes it. */
  lemma RowChunk(scr: Screen, r: nat)
    requires r < scr.rows
    ensures Terminated(Lines(scr))[r] == RowText(scr, r) + ERASE_LINE + Terminator(scr, r)
  {
    RowAt(scr, r);
  }

  /** The rows of the screen, top to bottom. */
  function Lines(scr: Screen): (ls: seq<string>)
    ensures |ls| == scr.rows
  {
    seq(scr.rows, r requires 0 <= r < scr.rows => RowLine(scr, r))
  }

  /** `\x1b[<row>;<col>H`: the 1-based cursor-position escape. */
  function CursorTo(row: int, col: int): string {
    [ESC_CHAR] + "[" + IntToDecimal(row) + ";" + IntToDecimal(col) + "H"
  }

  /** One whole frame for the cursor `c`. */
  function Frame(scr: Screen, c: Cursor): string {
    HIDE_CURSOR + CURSOR_HOME + Join(Lines(scr)) + CursorTo(c.cy + 1, c.cx + 1) + SHOW_CURSOR
  }

  /** A frame is the hide-and-home prefix, the rows, and the cursor-placing
      tail, in that order. */
  lemma FrameParts(scr: Screen, c: Cursor)
    ensures var tail := CursorTo(c.cy + 1, c.cx + 1) + SHOW_CURSOR;
      && |HIDE_CURSOR + CURSOR_HOME| == 12
      && Frame(scr, c) == (HIDE_CURSOR + CURSOR_HOME) + Join(Lines(scr)) + tail
  {
    assert |HIDE_CURSOR| == 6 && |CURSOR_HOME| == 6;
    Regroup(HIDE_CURSOR + CURSOR_HOME + Join(Lines(scr)), CursorTo(c.cy + 1, c.cx + 1), SHOW_CURSOR, "");
  }

  /** The rows of a frame: one `\r\n`-separated line per screen row, each
      ending in an erase escape, the banner on row `rows / 3` and a lone `>`
      on every other row. */
  lemma FrameRows(scr: Screen)
    requires scr.rows >= 1
    ensures var ls := SplitLines(Join(Lines(scr)));
      && |ls| == scr.rows
      && (forall r :: 0 <= r < scr.rows && r != scr.rows / 3 ==> ls[r] == ">" + ERASE_LINE)
      && ls[scr.rows / 3] == WelcomeLine(scr.cols) + ERASE_LINE
  {
    var ls := Lines(scr);
    LinesHaveNoCR(scr);
    SplitJoin(ls);
    forall r | 0 <= r < scr.rows && r != scr.rows / 3
      ensures ls[r] == ">" + ERASE_LINE
    {
      RowAt(scr, r);
    }
    RowAt(scr, scr.rows / 3);
  }

  /** The shape of a whole frame: it opens by hiding the cursor and homing it,
      closes by placing the cursor and showing it, and in between holds the
      rows as `FrameRows` describes them. For a cursor on the screen the
      position escape carries its 1-based row and column in decimal. */
  lemma FrameShape(scr: Screen, c: Cursor)
    ensures var f := Frame(scr, c);
      var tail := CursorTo(c.cy + 1, c.cx + 1) + SHOW_CURSOR;
      && |f| >= 12 + |tail|
      && f[..12] == HIDE_CURSOR + CURSOR_HOME
      && f[|f| - |tail|..] == tail
      && f[|f| - 6..] == SHOW_CURSOR
      && f[12..|f| - |tail|] == Join(Lines(scr))
      && (scr.rows == 0 ==> |f| == 12 + |tail|)
    ensures InBounds(c, scr) ==>
      CursorTo(c.cy + 1, c.cx + 1) ==
        [ESC_CHAR] + "[" + NatToDecimal(c.cy + 1) + ";" + NatToDecimal(c.cx + 1) + "H"
  {
    FrameParts(scr, c);
    var head := HIDE_CURSOR + CURSOR_HOME;
    var mid := Join(Lines(scr));
    var tail := CursorTo(c.cy + 1, c.cx + 1) + SHOW_CURSOR;
    SliceThree(head, mid, tail);
    ConcatKeepsEnds(CursorTo(c.cy + 1, c.cx + 1), SHOW_CURSOR, 6);
    ConcatKeepsEnds(head + mid, tail, 6);
    assert SHOW_CURSOR[|SHOW_CURSOR| - 6..] == SHOW_CURSOR;
    assert scr.rows == 0 ==> mid == "";
  }

  /** No row of the screen holds a carriage return of its own. */
  lemma LinesHaveNoCR(scr: Screen)
    ensures forall i :: 0 <= i < scr.rows ==> NoCR(Lines(scr)[i])
  {
    forall i | 0 <= i < scr.rows
      ensures NoCR(Lines(scr)[i])
    {
      var line := RowText(scr, i);
      assert Lines(scr)[i] == RowLine(scr, i) == line + ERASE_LINE;
      assert NoCR(line) && NoCR(ERASE_LINE);
    }
  }

  /** `while (padding--) abAppend(ab, " ", 1)`, with every allocation
      succeeding: the buffer gains `padding` blanks. */
  method AppendBlanks(ab: ABuf, padding: nat) returns (r: ABuf)
    requires Valid(ab)
    ensures Valid(r)
    ensures r.b == ab.b + Spaces(padding)
  {
    r := ab;
    var left := padding;
    while left != 0
      invariant 0 <= left <= padding
      invariant Valid(r)
      invariant r.b == ab.b + Spaces(padding - left)
    {
      r := Append(r, " ", 1, true);
      SpacesStep(padding - left);
      Regroup(ab.b, Spaces(padding - left), " ", "");
      left := left - 1;
    }
  }

  /** The banner branch of `editorDrawRows`, append by append as in the
      source, with every allocation succeeding: the buffer gains exactly the
      welcome line. */
  method DrawWelcome(ab: ABuf, cols: nat) returns (r: ABuf)
    requires Valid(ab)
    ensures Valid(r)
    ensures r.b == ab.b + WelcomeLine(cols)
  {
    var welcomelen := |WELCOME|;
    if welcomelen > cols {
      welcomelen := cols;
    }
    assert welcomelen == WelcomeWidth(cols);
    var padding := (cols - welcomelen) / 2;
    ghost var marker := "";
    r := ab;
    if padding != 0 {
      r := Append(r, ">", 1, true);
      marker := ">";
      padding := padding - 1;
    }
    assert r.b == ab.b + marker;
    ghost var blanks := padding;
    r := AppendBlanks(r, padding);
    ghost var padded := r.b;
    r := Append(r, WELCOME, welcomelen, true);
    WelcomeLineParts(cols);
    assert WelcomeLine(cols) == marker + Spaces(blanks) + WELCOME[..welcomelen];
    Regroup(ab.b, marker, Spaces(blanks), WELCOME[..welcomelen]);
  }

  /** The welcome line as the source assembles it: the marker when the
      padding is not zero, the rest of the padding in blanks, then the banner. */
  lemma WelcomeLineParts(cols: nat)
    ensures var w := WelcomeWidth(cols); var padding := (cols - w) / 2;
      WelcomeLine(cols) ==
        (if padding != 0 then ">" else "") + Spaces(if padding != 0 then padding - 1 else 0) + WELCOME[..w]
  {
    assert Spaces(0) == "";
  }

  /** What one pass of the loop in `editorDrawRows` draws before the erase
      escape: the banner branch on row `rows / 3`, a `>` on any other row. */
  method DrawRowText(ab: ABuf, scr: Screen, row: nat) returns (r: ABuf)
    requires Valid(ab)
    ensures Valid(r)
    ensures r.b == ab.b + RowText(scr, row)
  {
    if row == scr.rows / 3 {
      r := DrawWelcome(ab, scr.cols);
    } else {
      r := Append(ab, ">", 1, true);
      assert ">"[..1] == ">";
    }
  }

  /** One pass of the loop in `editorDrawRows`, with every allocation
      succeeding: row `row` of the screen and, unless it is the last row, the
      `\r\n` that separates it from the next. */
  method DrawRow(ab: ABuf, scr: Screen, row: nat) returns (r: ABuf)
    requires Valid(ab) && row < scr.rows
    ensures Valid(r)
    ensures r.b == ab.b + Terminated(Lines(scr))[row]
  {
    ghost var text := RowText(scr, row);
    r := DrawRowText(ab, scr, row);
    ghost var shown := r.b;
    r := Append(r, ERASE_LINE, 3, true);
    assert ERASE_LINE[..3] == ERASE_LINE;
    assert r.b == shown + ERASE_LINE;
    ghost var erased := r.b;
    if row < scr.rows - 1 {
      r := Append(r, CRLF, 2, true);
      assert CRLF[..2] == CRLF;
    }
    assert r.b == erased + Terminator(scr, row);
    RowChunk(scr, row);
    Regroup(ab.b, text, ERASE_LINE, Terminator(scr, row));
  }

  /** `editorDrawRows` with every allocation succeeding: the buffer gains
      exactly the rows of a frame. */
  method DrawRows(ab: ABuf, scr: Screen) returns (r: ABuf)
    requires Valid(ab)
    ensures Valid(r)
    ensures r.b == ab.b + Join(Lines(scr))
  {
    ghost var chunks := Terminated(Lines(scr));
    r := ab;
    var row := 0;
    while row < scr.rows
      invariant 0 <= row <= scr.rows
      invariant Valid(r)
      invariant r.b == ab.b + Concat(chunks[..row])
    {
      r := DrawRow(r, scr, row);
      ConcatTakeStep(chunks, row);
      Regroup(ab.b, Concat(chunks[..row]), chunks[row], "");
      row := row + 1;
    }
    assert chunks[..row] == chunks;
    JoinIsConcatOfTerminated(Lines(scr));
  }

  /** `editorRefreshScreen` up to the `write`: the bytes it hands to the
      terminal, built in a fresh buffer with every allocation succeeding, are
      exactly `Frame`. */
  method RefreshScreen(scr: Screen, c: Cursor) returns (out: string)
    ensures out == Frame(scr, c)
  {
    var ab := ABUF_INIT;
    ab := Append(ab, HIDE_CURSOR, 6, true);
    assert ab.b == HIDE_CURSOR;
    ab := Append(ab, CURSOR_HOME, 6, true);
    ab := DrawRows(ab, scr);
    ghost var rows := ab.b;
    assert rows == HIDE_CURSOR + CURSOR_HOME + Join(Lines(scr));
    var buf := CursorTo(c.cy + 1, c.cx + 1);
    ab := Append(ab, buf, |buf|, true);
    assert buf[..|buf|] == buf;
    ab := Append(ab, SHOW_CURSOR, 6, true);
    assert ab.b == rows + buf + SHOW_CURSOR;
    out := ab.b;
  }
}

=== FILE: text.dfy ===
/**
 Strings of the terminal output: runs of blanks, concatenation of pieces, and
 lines joined and split at the `\r\n` separator the frame uses between rows.
 */
module Text {

  const CRLF: string := "\r\n"

  /** `n` blanks. */
  function Spaces(n: nat): (s: string)
    ensures |s| == n
    ensures forall i :: 0 <= i < n ==> s[i] == ' '
  {
    seq(n, _ => ' ')
  }

  /** One more blank at the end. */
  lemma SpacesStep(n: nat)
    ensures Spaces(n) + " " == Spaces(n + 1)
  {
  }

  /** The pieces one after another. */
  function Concat(xs: seq<string>): string
    decreases |xs|
  {
    if |xs| == 0 then "" else xs[0] + Concat(xs[1..])
  }

  /** Appending one more piece at the end. */
  lemma {:induction false} ConcatSnoc(xs: seq<string>, x: string)
    ensures Concat(xs + [x]) == Concat(xs) + x
    decreases |xs|
  {
    if |xs| > 0 {
      assert (xs + [x])[1..] == xs[1..] + [x];
      ConcatSnoc(xs[1..], x);
    }
  }

  /** Concatenation is associative; stated for the solver, which does not
      always regroup long chains of `+` by itself. */
  lemma Regroup(a: string, b: string, c: string, d: string)
    ensures a + b + c + d == a + (b + c + d)
    ensures a + b + c == a + (b + c)
  {
  }

  /** Text added in front of a string keeps the string's prefixes and suffixes. */
  lemma ConcatKeepsEnds(a: string, b: string, n: nat)
    requires n <= |b|
    ensures a <= a + b
    ensures |a + b| >= n && (a + b)[|a + b| - n..] == b[|b| - n..]
  {
    assert (a + b)[..|a|] == a;
  }

  /** The three parts of `a + b + c` are recovered by slicing. */
  lemma SliceThree(a: string, b: string, c: string)
    ensures var s := a + b + c;
      && |s| == |a| + |b| + |c|
      && s[..|a|] == a
      && s[|a|..|s| - |c|] == b
      && s[|s| - |c|..] == c
  {
    var s := a + b + c;
    assert s[..|a|] == a;
    assert s[|a|..|s| - |c|] == b;
  }

  /** Taking one more piece of a sequence of pieces adds it at the end. */
  lemma ConcatTakeStep(xs: seq<string>, i: nat)
    requires i < |xs|
    ensures Concat(xs[..i + 1]) == Concat(xs[..i]) + xs[i]
  {
    assert xs[..i + 1] == xs[..i] + [xs[i]];
    ConcatSnoc(xs[..i], xs[i]);
  }

  /** The lines with `\r\n` between consecutive ones and none after the last. */
  function Join(lines: seq<string>): string
    decreases |lines|
  {
    if |lines| == 0 then ""
    else if |lines| == 1 then lines[0]
    else lines[0] + CRLF + Join(lines[1..])
  }

  /** Each line followed by `\r\n`, except the last one. */
  function Terminated(lines: seq<string>): (r: seq<string>)
    ensures |r| == |lines|
  {
    seq(|lines|, i requires 0 <= i < |lines| =>
      lines[i] + (if i < |lines| - 1 then CRLF else ""))
  }

  /** Joining lines is writing out each line with its terminator. */
  lemma {:induction false} JoinIsConcatOfTerminated(lines: seq<string>)
    ensures Concat(Terminated(lines)) == Join(lines)
    decreases |lines|
  {
    if |lines| == 1 {
      assert Terminated(lines)[1..] == [];
    } else if |lines| > 1 {
      assert Terminated(lines)[1..] == Terminated(lines[1..]);
      JoinIsConcatOfTerminated(lines[1..]);
    }
  }

  predicate NoCR(s: string) {
    forall i :: 0 <= i < |s| ==> s[i] != '\r'
  }

  /** The text cut at every `\r\n`; a text without one is a single line. */
  function SplitLines(t: string): (r: seq<string>)
    ensures |r| >= 1
    decreases |t|
  {
    if |t| == 0 then [""]
    else if |t| >= 2 && t[0] == '\r' && t[1] == '\n' then [""] + SplitLines(t[2..])
    else
      var rest := SplitLines(t[1..]);
      [[t[0]] + rest[0]] + rest[1..]
  }

  /** A line without carriage returns in front of a text only lengthens the
      first line of the text. */
  lemma {:induction false} SplitLinesPrefix(line: string, t: string)
    requires NoCR(line)
    ensures SplitLines(line + t) == [line + SplitLines(t)[0]] + SplitLines(t)[1..]
    decreases |line|
  {
    if |line| > 0 {
      assert (line + t)[1..] == line[1..] + t;
      assert (line + t)[0] == line[0];
      SplitLinesPrefix(line[1..], t);
      assert [line[0]] + (line[1..] + SplitLines(t)[0]) == line + SplitLines(t)[0];
    } else {
      assert line + t == t;
      assert line + SplitLines(t)[0] == SplitLines(t)[0];
      assert SplitLines(t) == [SplitLines(t)[0]] + SplitLines(t)[1..];
    }
  }

  /** Round trip: splitting joined lines gives the lines back, provided no line
      holds a carriage return of its own. */
  lemma {:induction false} SplitJoin(lines: seq<string>)
    requires |lines| >= 1
    requires forall i :: 0 <= i < |lines| ==> NoCR(lines[i])
    ensures SplitLines(Join(lines)) == lines
    decreases |lines|
  {
    if |lines| == 1 {
      SplitLinesPrefix(lines[0], "");
      assert lines[0] + "" == lines[0];
    } else {
      var rest := Join(lines[1..]);
      assert lines[0] + CRLF + rest == lines[0] + (CRLF + rest);
      SplitLinesPrefix(lines[0], CRLF + rest);
      assert (CRLF + rest)[2..] == rest;
      SplitJoin(lines[1..]);
      assert lines[0] + "" == lines[0];
      assert lines == [lines[0]] + lines[1..];
    }
  }
}

=== FILE: wrappers.dfy ===
/** The optional-value datatype used where the editor may produce nothing. */
module Wrappers {

  /** `None` stands for "no value" (for the key decoder: no byte is available yet). */
  datatype Option<+T> = None | Some(value: T)
}
